=== FILE: README.md ===
# Dendron importer for Obsidian: folder scaffolding, modelled in Dafny

The plugin adds an "Import from Dendron" dialog to an Obsidian vault. When
the user confirms it with a non-blank source path, the plugin does not read
any Dendron notes. It creates 25 listed folder paths under the destination
folder, for example `Courses/Doing` or `Web-Resources/React`. Creating
them also creates the intermediate folders `Courses`, `Projects`,
`Web-Resources`, `Guidewire` and `Technical`.
Then it writes `IMPORT_GUIDE.md` into that destination folder.

Every folder is made by `createFolderSafely`, which works in two steps:

1. An existing folder is returned untouched. Otherwise a direct
   `createFolder` is tried.
2. If the host refuses, the fallback runs. It splits the path on `/`, drops
   the empty pieces, and walks the running paths `a`, `a/b`, `a/b/c`, …
   It asks the host to create each one at which nothing is stored, and it
   swallows every refusal. The fallback returns null.

The model has seven modules:

- `Wrappers` holds `Option` and `Result`.
- `Paths` models `split('/')`, the filter, joining, the running paths and
  the parent of a path.
- `Host` models the vault as a map from full path to `File(content)` or
  `Folder`, plus the three host calls the plugin makes.
- `Folders` models `createFolderSafely`, both as a function and as the
  source's own loop (`FallbackWalk`).
- `Scaffold` models the 25 paths, the sequential folder stage and the guide
  write. That includes the catch in `importFromDendron`.
- `PluginSettings` models the `loadSettings` merge.
- `ImportModal` models `String.prototype.trim` and the Import button.

**Host assumption.** The host's own code is not part of this model, so its
behaviour is fixed by one stated assumption. `createFolder(p)` and
`create(p, c)` succeed exactly when all of these hold:

- `p` is non-empty;
- nothing is stored at `p`;
- `p` is at top level, or its parent is a folder.

A refused creation changes nothing. Paths are taken literally, and the
vault root is not an entry. The tree invariant `WellFormed` says that every
entry has a non-empty path and is either at top level or sits in a folder.

## Model

| member | source | states |
|---|---|---|
| `Paths.Split` | main.ts:247 | `split('/')` always yields at least one piece, and no piece contains a separator |
| `Paths.JoinSplit` | main.ts:247 | rejoining the pieces of a split with `/` gives back the original string |
| `Paths.SplitJoin` | main.ts:247 | splitting a join of separator-free pieces gives back those pieces |
| `Paths.SplitAround` | main.ts:247 | splitting around a separator splits each side independently |
| `Paths.DropEmpty` | main.ts:247 | the filter's result is no longer than its input; every kept piece is non-empty and comes from the input |
| `Paths.DropEmptyMembers` | main.ts:247 | a piece survives the filter exactly when it is an input piece and non-empty |
| `Paths.DropEmptyAppend` | main.ts:247 | filtering distributes over concatenation, so order is preserved |
| `Paths.DropEmptyKeepsProper` | main.ts:247 | the filter is the identity on a list with no empty pieces |
| `Paths.ConcatDropEmpty` | main.ts:247 | the filter loses no character |
| `Paths.ConcatSplit` | main.ts:247 | the split pieces hold exactly the path's characters other than `/`, in order |
| `Paths.Segments` | main.ts:247 | the segments walked are all non-empty and free of separators |
| `Paths.SegmentsKeepCharacters` | main.ts:247 | the segments hold exactly the path's non-separator characters, in order |
| `Paths.SegmentsOfJoin` | main.ts:247 | the segments of a join of proper segments are those segments |
| `Paths.NormalizeIdempotent` | main.ts:247-251 | joining the segments again changes nothing: same segments, and the result is a fixed point |
| `Paths.TopLevelNormalized` | main.ts:247 | a non-empty name without `/` is a single segment and already normalized |
| `Paths.NormalizedChild` | main.ts:153-179 | `a/b` of two normalized paths has the segments of `a` followed by those of `b`, and is normalized |
| `Paths.JoinAppend` | main.ts:251 | joining two non-empty segment lists puts one `/` between their joins |
| `Paths.PrefixStep` | main.ts:251 | each running path after the first is the previous one, a `/`, and the next segment |
| `Paths.ParentOfChild` | main.ts:251 | the parent of `a/b`, with `b` free of `/`, is `a` |
| `Paths.ParentOfTopLevel` | main.ts:251 | a path without `/` has no parent |
| `Paths.PrefixesChain` | main.ts:248-251 | the running paths are non-empty; the first is top level, and each later one's parent is the one before it |
| `Paths.ChainGrows` | main.ts:250-251 | the running paths strictly grow in length |
| `Paths.ChainLastIsNew` | main.ts:250-251 | the last path of a chain does not occur earlier in it |
| `Paths.PrefixAncestors` | main.ts:250-251 | every earlier running path is a proper ancestor folder path of every later one |
| `Paths.AncestorTransitive` | main.ts:250-251 | being an ancestor path is transitive |
| `Paths.LastPrefixIsNormalized` | main.ts:247-251 | the last running path is the normalized path |
| `Paths.TopLevelHasNoSep` | main.ts:251 | a path without a parent holds no `/` |
| `Paths.ParentSplits` | main.ts:251 | a path with a parent is that parent, a `/`, and a name without `/` |
| `Paths.ParentKeepsFirstPiece` | main.ts:247-251 | a path and its parent begin with the same piece of the split |
| `Host.Lookup` | main.ts:238 | the lookup is null exactly when nothing is stored at the path, and otherwise gives the stored entry |
| `Host.CreateFolder` | main.ts:243 | creation succeeds exactly under the host assumption; on success it adds exactly one folder and keeps every other entry |
| `Host.CreateFile` | main.ts:233 | the same for a file, which then holds the given content |
| `Folders.WalkStep` | main.ts:252-259 | one pass keeps every stored entry; a stored path is skipped; otherwise creation is asked for, and the vault changes exactly when the host accepts, then only by a folder at that path |
| `Folders.Walk` | main.ts:250-260 | the walk keeps every stored entry and adds only folders at running paths; creation is asked for exactly at the running paths with no entry |
| `Folders.WalkKeepsWellFormed` | main.ts:250-260 | the walk keeps the tree invariant |
| `Folders.RunningPathStep` | main.ts:248-251 | the loop's update `currentPath ? currentPath/part : part` yields the next running path |
| `Folders.FallbackWalk` | main.ts:244-263 | the source's loop performs exactly the walk over the running paths, and returns null |
| `Folders.CreateFolderSafely` | main.ts:236-264 | an existing folder is returned and the vault is unchanged; a returned folder is the path and exists; null comes back exactly when the path is not a folder and the direct creation is refused, and the vault is then the walk's; nothing stored is changed; new entries are folders on the path |
| `Folders.CreateFolderSafelyKeepsWellFormed` | main.ts:236-264 | `createFolderSafely` keeps the tree invariant |
| `Folders.ChainFolders` | main.ts:250-256 | in a well-formed vault, a stored running path has folders at every earlier running path |
| `Folders.WalkCompletes` | main.ts:250-260 | when no file is stored on the running paths, every running path is a folder after the walk |
| `Folders.WalkAddsOnly` | main.ts:253-256 | the walk creates nothing at a path that is neither stored nor walked |
| `Folders.RefusedStep` | main.ts:252-259 | a refused creation inside the loop is swallowed and changes nothing |
| `Folders.WalkSkipsBelowFile` | main.ts:252-259 | a file on a running path blocks every creation below it; the refusals are swallowed |
| `Folders.CreateFolderSafelySkipsBelowFile` | main.ts:236-263 | with a file on a proper ancestor (a running path before the last), null is returned, the path is not created, and nothing below the file is |
| `Folders.CreateFolderSafelyCompletes` | main.ts:236-264 | for a normalized path with no file on it in a well-formed vault, every ancestor and the path itself are folders afterwards |
| `Folders.FirstPieceStored` | main.ts:238-243 | in a well-formed vault, the first piece of a stored path is stored as well |
| `Folders.CreateFolderSafelyCompletesFresh` | main.ts:236-264 | for any path with at least one segment, including leading, trailing or doubled `/`, when none of its running paths is stored in a well-formed vault, every running path is a folder afterwards |
| `Folders.DoubledSeparatorSkipsWalk` | main.ts:241-247 | for any separator-free names `a` and `b`, in a well-formed vault with folders at `a` and `a/`, no file lies on `a//b`, yet `a//b` is created directly and the running path `a/b` is never made |
| `Scaffold.StructurePaths` | main.ts:153-179 | there are 25 structure paths, and each starts with the base followed by `/` |
| `Scaffold.FirstStructurePath` | main.ts:154 | the first structure path is `base/Courses/Doing` |
| `Scaffold.SubfoldersValid` | main.ts:153-179 | every subfolder has proper segments, and none of its running paths is the guide's name |
| `Scaffold.EnsureAll` | main.ts:181-183 | the folder stage never changes a stored entry and adds only folders |
| `Scaffold.EnsureAllAppend` | main.ts:181-183 | the paths are processed in order: the stage over `a + b` is the stage over `a`, then over `b` |
| `Scaffold.EnsureAllKeepsWellFormed` | main.ts:181-183 | the folder stage keeps the tree invariant |
| `Scaffold.EnsureAllAvoids` | main.ts:181-183 | the folder stage creates nothing at a path lying on none of the processed paths |
| `Scaffold.CreateDendronFolderStructure` | main.ts:136-233 | nothing stored is changed; apart from the guide only folders are added; on success the guide was absent before and holds the guide text; on failure only folders were added |
| `Scaffold.CreateDendronFolderStructureKeepsWellFormed` | main.ts:152-233 | scaffolding keeps the tree invariant |
| `Scaffold.FolderStageAvoidsGuide` | main.ts:153-183 | the folder stage never occupies a free guide path |
| `Scaffold.GuideWritable` | main.ts:233 | the guide can be created once the base is a folder and the guide path is free |
| `Scaffold.ScaffoldCompletes` | main.ts:152-233 | with a normalized base and no file on the structure paths, the base and every structure path with its ancestors are folders; the guide is written, after them, exactly when its path was free |
| `Scaffold.EnsureAllExisting` | main.ts:181-183 | the folder stage changes nothing when every path is already a folder |
| `Scaffold.SecondFolderStageChangesNothing` | main.ts:181-183 | after a completed run, running the folder stage again leaves the vault as it is |
| `PluginSettings.LoadSettings` | main.ts:266-268 | each stored field overrides its default and each absent field keeps it; nothing stored gives the defaults |
| `PluginSettings.SaveSettings` | main.ts:270-272 | saving stores every field |
| `PluginSettings.LoadAfterSave` | main.ts:266-272 | loading what was saved gives back the saved settings |
| `ImportModal.Trim` | main.ts:94 | the trimmed path is empty exactly when every character is JavaScript white space; otherwise it starts and ends with a non-white-space character |
| `ImportModal.OpenedDialogNeedsPath` | main.ts:93-97 | confirming the dialog as opened, whose source path starts empty (line 26), keeps it open and changes nothing |
| `ImportModal.Confirm` | main.ts:93-101 | the dialog stays open, with nothing changed, exactly when the source path is blank; otherwise the import runs, keeps every stored entry, and reports success only if the guide was written |
| `ImportModal.ConfirmScaffolds` | main.ts:93-101 | a non-blank source path closes the dialog and imports into its destination folder: with a normalized destination and no file on the structure paths, the destination and every structure path are folders, and success is reported exactly when the guide path was free |
| `ImportModal.SourcePathOnlyGuards` | main.ts:93-101 | the source path is only checked for blankness: any two non-blank paths import alike |
| `ImportModal.DefaultFolderNormalized` | main.ts:19 | the default destination folder is a normalized path |
| `ImportModal.DefaultFirstPath` | main.ts:18-22 | under the default folder the first structure path is `Imported from Dendron/Courses/Doing` |
| `ImportModal.DefaultGuidePath` | main.ts:233 | under the default folder the guide path is `Imported from Dendron/IMPORT_GUIDE.md` |
| `ImportModal.DefaultImportScenario` | main.ts:93-101 | default settings, an empty vault and a source path: the import succeeds, the base folder and its first subfolder exist, and the guide is written |

## Left out

- The user interface is not modelled: the dialog's layout, the ribbon icon, the command, the settings tab and the Notice texts. Notices appear only as the `Status` of a confirmation.
- `async`/`await` is not modelled, because the plugin awaits every call in sequence; the model runs the calls in that order.
- The `console.warn` and `console.error` logging is not modelled; it has no effect on the vault.
- The guide's Markdown text is a parameter, because its content has no bearing on the folders.
- The host's real path handling is replaced by the stated assumption. That covers Obsidian's own path normalisation, its case rules and a creation that fails for other reasons, such as I/O. On a path with empty pieces, a direct creation can succeed at the literal path beside a stored folder such as `a/`, and the fallback then never runs (`Folders.DoubledSeparatorSkipsWalk`).
- Folders.CreateFolderSafelyCompletes: it covers only normalized paths, because of the direct creation described above. Paths with leading, trailing or doubled `/` are covered by `Folders.CreateFolderSafelyCompletesFresh` only when none of their running paths is stored yet. `Scaffold.ScaffoldCompletes` builds on the normalized case; its paths are normalized whenever the base is.
- `getAbstractFileByPath` throwing is not modelled; the model treats lookup as total.
- Scaffold.ScaffoldCompletes: whether `vault.create` succeeds on a path that already holds a file is up to the host. Under the stated host assumption it is refused, so the model predicts `ImportFailed` for a second run whose guide already exists. That prediction follows from the assumption, not from any promise of the host.
- The two toggles `preserveOriginalNames` and `createDateFolders` are stored and loaded only. No other logic reads them.
- PluginSettings.LoadSettings: the stored data is modelled as typed, optional fields. Extra keys and values of the wrong type that `Object.assign` would also copy are not modelled.
- The source path typed into the dialog is only checked for blankness; nothing is read from it. The model therefore ignores it once it is found non-blank.
- The subfolder list is stored as segment lists, for example `["Courses", "Doing"]`, and joined with `/`. The joined strings are exactly the source's template literals.

## Notes on the source

- On line 254 the test `!(existing instanceof TFolder) && existing === null` is the same as `existing === null`. The model uses the simpler test.
- `createFolderSafely` itself never throws, because its fallback catches everything. The only failure `importFromDendron` can catch is therefore the guide write on line 233. Any folders already made stay.

=== FILE: folders.dfy ===
/**
 * `createFolderSafely`: make sure a slash-delimited path exists as a
 * folder, falling back to a segment-by-segment walk when the direct
 * creation is refused.
 */
module Folders {
  import opened Wrappers
  import opened Paths
  import opened Host

  /** The vault during the fallback walk, and every path the walk asked the host to create. */
  datatype WalkState = WalkState(vault: Vault, attempted: seq<string>)

  /** What `createFolderSafely` leaves behind: the vault and the returned folder (None for null). */
  datatype SafeOutcome = SafeOutcome(vault: Vault, folder: Option<string>)

  /**
   * One pass of the walk's loop body: creation is asked for only when no
   * entry is stored at `path`, and a refusal is swallowed. Stored entries
   * are kept, and the vault changes only when the host accepts, then only
   * by a new folder at `path`.
   */
  function WalkStep(s: WalkState, path: string): (r: WalkState)
    ensures Keeps(s.vault, r.vault)
    ensures path in s.vault ==> r == s
    ensures path !in s.vault ==> r.attempted == s.attempted + [path]
    ensures r.vault != s.vault <==> path !in s.vault && CreateFolder(s.vault, path).Ok?
    ensures r.vault != s.vault ==> r.vault == s.vault[path := Folder]
  {
    if Lookup(s.vault, path).Some? then s
    else match CreateFolder(s.vault, path)
      case Ok(w) => WalkState(w, s.attempted + [path])
      case Err(_) => WalkState(s.vault, s.attempted + [path])
  }

  /**
   * The walk over the running paths `qs`, in order. It never replaces or
   * changes a stored entry, adds nothing but folders at paths of `qs`, and
   * asks the host to create exactly those paths of `qs` absent at the start.
   * `WalkKeepsWellFormed` shows it keeps the tree invariant.
   */
  function Walk(v: Vault, qs: seq<string>): (s: WalkState)
    ensures Keeps(v, s.vault)
    ensures forall q :: q in s.vault && q !in v ==> s.vault[q] == Folder && q in qs
    ensures forall q :: q in s.attempted <==> q in qs && q !in v
    decreases |qs|
  {
    if |qs| == 0 then WalkState(v, [])
    else
      assert qs == qs[..|qs| - 1] + [qs[|qs| - 1]];
      WalkStep(Walk(v, qs[..|qs| - 1]), qs[|qs| - 1])
  }

  /**
   * The fallback branch as written: split, drop empty parts, grow the
   * current path one part at a time and visit it. The current path of the
   * i-th pass is the first i segments joined, so the loop performs the walk
   * over the running paths; the branch always returns null.
   */
  method FallbackWalk(v: Vault, folderPath: string) returns (r: SafeOutcome, attempted: seq<string>)
    ensures r.folder == None
    ensures WalkState(r.vault, attempted) == Walk(v, Prefixes(Segments(folderPath)))
  {
    var parts := Segments(folderPath);
    ghost var qs := Prefixes(parts);
    var currentPath := "";
    var w, tried := v, [];
    for i := 0 to |parts|
      invariant currentPath == (if i == 0 then "" else qs[i - 1])
      invariant WalkState(w, tried) == Walk(v, qs[..i])
    {
      var part := parts[i];
      currentPath := if currentPath != "" then currentPath + [Sep] + part else part;
      RunningPathStep(parts, i);
      WalkExtend(v, qs, i);
      var s := WalkStep(WalkState(w, tried), currentPath);
      w, tried := s.vault, s.attempted;
    }
    assert qs[..|parts|] == qs;
    r, attempted := SafeOutcome(w, None), tried;
  }

  /**
   * `createFolderSafely(folderPath)`. An existing folder is returned
   * untouched; otherwise a direct creation is tried and, when refused, the
   * walk runs and null is returned: null comes back exactly when the path
   * is not a folder and the host refuses it. Whatever happens, no stored entry is
   * replaced or changed and only folders on the path are added;
   * `CreateFolderSafelyKeepsWellFormed` shows the tree invariant is kept.
   */
  function CreateFolderSafely(v: Vault, folderPath: string): (r: SafeOutcome)
    ensures IsFolder(v, folderPath) ==> r == SafeOutcome(v, Some(folderPath))
    ensures r.folder.Some? ==> r.folder.value == folderPath && IsFolder(r.vault, folderPath)
    ensures r.folder.None? <==> !IsFolder(v, folderPath) && CreateFolder(v, folderPath).Err?
    ensures r.folder.None? ==> r.vault == Walk(v, Prefixes(Segments(folderPath))).vault
    ensures Keeps(v, r.vault)
    ensures forall q :: q in r.vault && q !in v ==>
              r.vault[q] == Folder && (q == folderPath || q in Prefixes(Segments(folderPath)))
  {
    if Lookup(v, folderPath) == Some(Folder) then SafeOutcome(v, Some(folderPath))
    else match CreateFolder(v, folderPath)
      case Ok(w) => SafeOutcome(w, Some(folderPath))
      case Err(_) => SafeOutcome(Walk(v, Prefixes(Segments(folderPath))).vault, None)
  }

  /** The walk keeps the tree invariant: every folder it adds sits in a folder. */
  lemma {:induction false} WalkKeepsWellFormed(v: Vault, qs: seq<string>)
    requires WellFormed(v)
    ensures WellFormed(Walk(v, qs).vault)
    decreases |qs|
  {
    if |qs| > 0 {
      var init, last := qs[..|qs| - 1], qs[|qs| - 1];
      WalkKeepsWellFormed(v, init);
      var mid := Walk(v, init);
      if Lookup(mid.vault, last).None? && CreateFolder(mid.vault, last).Ok? {
        CreateFolderKeepsWellFormed(mid.vault, last);
      }
    }
  }

  /** `createFolderSafely` keeps the tree invariant. */
  lemma CreateFolderSafelyKeepsWellFormed(v: Vault, folderPath: string)
    requires WellFormed(v)
    ensures WellFormed(CreateFolderSafely(v, folderPath).vault)
  {
    if CreateFolder(v, folderPath).Ok? {
      CreateFolderKeepsWellFormed(v, folderPath);
    }
    WalkKeepsWellFormed(v, Prefixes(Segments(folderPath)));
  }

  /** Extending the walked list by its next path is one more step. */
  lemma WalkExtend(v: Vault, qs: seq<string>, i: nat)
    requires i < |qs|
    ensures Walk(v, qs[..i + 1]) == WalkStep(Walk(v, qs[..i]), qs[i])
  {
    assert qs[..i + 1][..i] == qs[..i];
  }

  /** The source's update of the current path yields the next running path. */
  lemma RunningPathStep(parts: seq<string>, i: nat)
    requires ProperSegments(parts) && i < |parts|
    ensures var current := if i == 0 then "" else Prefixes(parts)[i - 1];
            (if current != "" then current + [Sep] + parts[i] else parts[i]) == Prefixes(parts)[i]
  {
    PrefixesChain(parts);
    if i > 0 {
      PrefixStep(parts, i);
    } else {
      assert parts[..1] == [parts[0]];
    }
  }

  /** In a well-formed vault, a stored path of a chain has folders at every earlier path. */
  lemma {:induction false} ChainFolders(v: Vault, qs: seq<string>, k: nat)
    requires WellFormed(v) && Chain(qs)
    requires k < |qs| && qs[k] in v
    ensures forall j :: 0 <= j < k ==> IsFolder(v, qs[j])
    decreases k
  {
    if k > 0 {
      assert ParentReady(v, qs[k]);
      ChainFolders(v, qs, k - 1);
    }
  }

  /** Walking a chain on which no file is stored leaves a folder at every path of the chain. */
  lemma {:induction false} WalkCompletes(v: Vault, qs: seq<string>)
    requires Chain(qs)
    requires forall q :: q in qs && q in v ==> v[q] == Folder
    ensures forall q :: q in qs ==> IsFolder(Walk(v, qs).vault, q)
    decreases |qs|
  {
    var n := |qs|;
    if n > 0 {
      var init, last := qs[..n - 1], qs[n - 1];
      ChainInit(qs);
      NoFileOnInit(v, qs);
      WalkCompletes(v, init);
      var mid := Walk(v, init);
      var parent := if n > 1 then Some(qs[n - 2]) else None;
      assert ParentOf(last) == parent;
      assert parent.Some? ==> IsFolder(mid.vault, parent.value) by {
        if n > 1 {
          assert init[n - 2] == qs[n - 2];
        }
      }
      CompletingStep(mid, last, parent);
      assert Walk(v, qs) == WalkStep(mid, last);
      FoldersExtend(qs, init, mid.vault, Walk(v, qs).vault);
    }
  }

  /** The precondition of `WalkCompletes` carries over to the shorter chain. */
  lemma NoFileOnInit(v: Vault, qs: seq<string>)
    requires |qs| > 0
    requires forall q :: q in qs && q in v ==> v[q] == Folder
    ensures forall q :: q in qs[..|qs| - 1] && q in v ==> v[q] == Folder
  {
    forall q | q in qs[..|qs| - 1] && q in v
      ensures v[q] == Folder
    {
      var i :| 0 <= i < |qs| - 1 && qs[..|qs| - 1][i] == q;
      assert qs[i] == q;
    }
  }

  /** Folders at every earlier path, kept, plus a folder at the last path: folders at all paths. */
  lemma FoldersExtend(qs: seq<string>, init: seq<string>, m: Vault, w: Vault)
    requires |qs| > 0 && init == qs[..|qs| - 1]
    requires forall q :: q in init ==> IsFolder(m, q)
    requires IsFolder(w, qs[|qs| - 1]) && Keeps(m, w)
    ensures forall q :: q in qs ==> IsFolder(w, q)
  {
    forall q | q in qs
      ensures IsFolder(w, q)
    {
      var i :| 0 <= i < |qs| && qs[i] == q;
      if i < |qs| - 1 {
        assert init[i] == q;
        assert q in init;
      }
    }
  }

  /**
   * A walk step at a path whose parent is a folder (or which is top level)
   * and which holds no file leaves a folder there and keeps the vault.
   */
  lemma CompletingStep(s: WalkState, q: string, parent: Option<string>)
    requires q != "" && ParentOf(q) == parent
    requires parent.Some? ==> IsFolder(s.vault, parent.value)
    requires q in s.vault ==> s.vault[q] == Folder
    ensures IsFolder(WalkStep(s, q).vault, q)
    ensures Keeps(s.vault, WalkStep(s, q).vault)
  {
  }

  /** In a well-formed vault, nothing is stored on a chain below a stored file. */
  lemma NothingBelowFile(v: Vault, qs: seq<string>, k: nat)
    requires WellFormed(v) && Chain(qs)
    requires k < |qs| && qs[k] in v && v[qs[k]].File?
    ensures forall j :: k < j < |qs| ==> qs[j] !in v
  {
    forall j | k < j < |qs|
      ensures qs[j] !in v
    {
      if qs[j] in v {
        ChainFolders(v, qs, j);
        assert false;
      }
    }
  }

  /**
   * In a well-formed vault, a file stored on a chain blocks the walk: no
   * path of the chain below it is created.
   */
  lemma WalkSkipsBelowFile(v: Vault, qs: seq<string>, k: nat)
    requires WellFormed(v) && Chain(qs)
    requires k < |qs| && qs[k] in v && v[qs[k]].File?
    ensures forall j :: k < j < |qs| ==> qs[j] !in Walk(v, qs).vault
  {
    NothingBelowFile(v, qs, k);
    WalkBelowFile(v, qs, k);
  }

  /** The induction behind `WalkSkipsBelowFile`. */
  lemma {:induction false} WalkBelowFile(v: Vault, qs: seq<string>, k: nat)
    requires Chain(qs)
    requires k < |qs| && qs[k] in v && v[qs[k]].File?
    requires forall j :: k < j < |qs| ==> qs[j] !in v
    ensures forall j :: k < j < |qs| ==> qs[j] !in Walk(v, qs).vault
    decreases |qs|
  {
    var n := |qs|;
    if n > k + 1 {
      var init, last := qs[..n - 1], qs[n - 1];
      ChainInit(qs);
      forall j | k < j < |init|
        ensures init[j] !in v
      {
        assert init[j] == qs[j];
      }
      WalkBelowFile(v, init, k);
      var mid := Walk(v, init);
      assert last !in mid.vault by {
        ChainLastIsNew(qs);
        WalkAddsOnly(v, init, last);
      }
      var parent := qs[n - 2];
      assert ParentOf(last) == Some(parent);
      assert parent !in mid.vault || mid.vault[parent].File? by {
        if n - 2 > k {
          assert init[n - 2] == parent;
        }
      }
      RefusedStep(mid, last, parent);
      assert Walk(v, qs) == WalkStep(mid, last);
      AbsentExtend(qs, init, k, mid.vault);
    }
  }

  /** Paths absent below `k` on all but the last path, and the last absent too: absent below `k` throughout. */
  lemma AbsentExtend(qs: seq<string>, init: seq<string>, k: nat, m: Vault)
    requires k + 1 < |qs| && init == qs[..|qs| - 1]
    requires forall j :: k < j < |init| ==> init[j] !in m
    requires qs[|qs| - 1] !in m
    ensures forall j :: k < j < |qs| ==> qs[j] !in m
  {
    forall j | k < j < |qs| - 1
      ensures qs[j] !in m
    {
      assert init[j] == qs[j];
    }
  }

  /** A walk step at an absent path whose parent is a file or absent changes nothing in the vault. */
  lemma RefusedStep(s: WalkState, q: string, parent: string)
    requires q !in s.vault && ParentOf(q) == Some(parent)
    requires parent !in s.vault || s.vault[parent].File?
    ensures WalkStep(s, q).vault == s.vault
  {
  }

  /** The walk creates nothing at a path that is neither stored nor walked. */
  lemma WalkAddsOnly(v: Vault, qs: seq<string>, q: string)
    requires q !in v && q !in qs
    ensures q !in Walk(v, qs).vault
  {
  }

  /**
   * Conflict safety: when a file is stored on a running path of a
   * normalized path in a well-formed vault, the folders below it are
   * skipped, the path itself is not created, and null is returned; the file
   * stays as it was.
   */
  lemma CreateFolderSafelySkipsBelowFile(v: Vault, folderPath: string, k: nat)
    requires WellFormed(v) && Normalized(folderPath)
    requires k < |Segments(folderPath)| - 1
    requires Prefixes(Segments(folderPath))[k] in v && v[Prefixes(Segments(folderPath))[k]].File?
    ensures var r := CreateFolderSafely(v, folderPath);
            && r.folder == None
            && folderPath !in r.vault
            && (forall j :: k < j < |Segments(folderPath)| ==> Prefixes(Segments(folderPath))[j] !in r.vault)
  {
    var qs := Prefixes(Segments(folderPath));
    PrefixesChain(Segments(folderPath));
    LastPrefixIsNormalized(folderPath);
    RefusedBelowFile(v, qs, k);
    WalkSkipsBelowFile(v, qs, k);
  }

  /**
   * With a file stored on a chain of a well-formed vault, the last path of
   * the chain is absent and its direct creation is refused.
   */
  lemma RefusedBelowFile(v: Vault, qs: seq<string>, k: nat)
    requires WellFormed(v) && Chain(qs)
    requires k + 1 < |qs| && qs[k] in v && v[qs[k]].File?
    ensures qs[|qs| - 1] !in v
    ensures CreateFolder(v, qs[|qs| - 1]).Err?
  {
    var n := |qs|;
    if qs[n - 1] in v {
      ChainFolders(v, qs, n - 1);
      assert false;
    }
    if qs[n - 2] in v && v[qs[n - 2]] == Folder {
      ChainFolders(v, qs, n - 2);
      assert false;
    }
    assert ParentOf(qs[n - 1]) == Some(qs[n - 2]);
  }

  /** No file is stored at any running path of `path`. */
  predicate NoFileOn(v: Vault, path: string)
  {
    forall q :: q in Prefixes(Segments(path)) && q in v ==> v[q] == Folder
  }

  /** Every running path of `path` is a folder. */
  predicate Completed(v: Vault, path: string)
  {
    forall q :: q in Prefixes(Segments(path)) ==> IsFolder(v, q)
  }

  /**
   * Ancestor completion: for a normalized path with no file stored on any
   * of its running paths, `createFolderSafely` leaves every running path,
   * the path itself last, as a folder.
   */
  lemma CreateFolderSafelyCompletes(v: Vault, folderPath: string)
    requires WellFormed(v)
    requires Normalized(folderPath)
    requires NoFileOn(v, folderPath)
    ensures Completed(CreateFolderSafely(v, folderPath).vault, folderPath)
  {
    PrefixesChain(Segments(folderPath));
    LastPrefixIsNormalized(folderPath);
    CompletesOnChain(v, Prefixes(Segments(folderPath)));
  }

  /** In a well-formed vault, the first piece of a stored path is itself stored. */
  lemma {:induction false} FirstPieceStored(v: Vault, path: string)
    requires WellFormed(v) && path in v
    ensures Split(path)[0] in v
    decreases |path|
  {
    match ParentOf(path)
    case None =>
      TopLevelHasNoSep(path);
      SplitNoSep(path);
    case Some(parent) =>
      ParentSplits(path);
      FirstPieceStored(v, parent);
      ParentKeepsFirstPiece(path);
  }

  /**
   * Ancestor completion for any path with at least one segment, including
   * one with leading, trailing or doubled separators: when nothing at all
   * is stored at its running paths, `createFolderSafely` leaves every
   * running path as a folder. The direct creation cannot succeed on an
   * unnormalized path here, because its parent would share the first
   * segment, which is not stored; so the walk runs.
   */
  lemma CreateFolderSafelyCompletesFresh(v: Vault, folderPath: string)
    requires WellFormed(v)
    requires |Segments(folderPath)| > 0
    requires forall q :: q in Prefixes(Segments(folderPath)) ==> q !in v
    ensures Completed(CreateFolderSafely(v, folderPath).vault, folderPath)
  {
    var segs := Segments(folderPath);
    var qs := Prefixes(segs);
    assert segs[..1] == [segs[0]];
    assert qs[0] == segs[0];
    var first := Split(folderPath)[0];
    assert first != "" ==> segs[0] == first;
    assert first !in v;
    if folderPath in v {
      FirstPieceStored(v, folderPath);
    }
    if CreateFolder(v, folderPath).Ok? {
      match ParentOf(folderPath)
      case None =>
        TopLevelHasNoSep(folderPath);
        SplitNoSep(folderPath);
        assert qs == [folderPath];
      case Some(parent) =>
        FirstPieceStored(v, parent);
        ParentKeepsFirstPiece(folderPath);
    } else {
      PrefixesChain(segs);
      assert CreateFolderSafely(v, folderPath).vault == Walk(v, qs).vault;
      WalkCompletes(v, qs);
    }
  }

  /** Folders at `a` and at `a/`, the latter a literal path ending in a separator. */
  function SlashVault(a: string): Vault
  {
    map[a := Folder, a + [Sep] := Folder]
  }

  /** The path `a//b`, with a doubled separator. */
  function Doubled(a: string, b: string): string
  {
    a + [Sep] + [Sep] + b
  }

  /**
   * Why `CreateFolderSafelyCompletes` asks for a normalized path: with
   * folders at `a` and `a/`, the direct creation of `a//b` succeeds at that
   * literal path, so the running path `a/b` is never made, although no file
   * lies on the path.
   */
  lemma DoubledSeparatorSkipsWalk(a: string, b: string)
    requires a != "" && Sep !in a && b != "" && Sep !in b
    ensures WellFormed(SlashVault(a)) && NoFileOn(SlashVault(a), Doubled(a, b))
    ensures !Completed(CreateFolderSafely(SlashVault(a), Doubled(a, b)).vault, Doubled(a, b))
  {
    var v, p := SlashVault(a), Doubled(a, b);
    SlashVaultWellFormed(a);
    DoubledRunningPaths(a, b);
    var w := CreateFolderSafely(v, p).vault;
    DoubledCreatedDirectly(a, b);
    var ab := a + [Sep] + b;
    assert |ab| != |a| && |ab| != |a + [Sep]| && |ab| != |p|;
    assert ab in Prefixes(Segments(p)) && !IsFolder(w, ab);
  }

  /** The vault with folders at `a` and `a/` keeps the tree invariant. */
  lemma SlashVaultWellFormed(a: string)
    requires a != "" && Sep !in a
    ensures WellFormed(SlashVault(a))
  {
    ParentOfTopLevel(a);
    ParentOfChild(a, "");
    assert a + [Sep] + "" == a + [Sep];
  }

  /** There, `a//b` is created directly, since its literal parent `a/` is a folder. */
  lemma DoubledCreatedDirectly(a: string, b: string)
    requires a != "" && Sep !in a && Sep !in b
    ensures CreateFolderSafely(SlashVault(a), Doubled(a, b)).vault == SlashVault(a)[Doubled(a, b) := Folder]
  {
    var v, p := SlashVault(a), Doubled(a, b);
    ParentOfChild(a + [Sep], b);
    assert (a + [Sep]) + [Sep] + b == p;
    assert |p| > |a| + 1;
    assert Lookup(v, p) == None;
    assert CreateFolder(v, p) == Ok(v[p := Folder]);
  }

  /** The running paths of `a//b` are `a` and `a/b`. */
  lemma DoubledRunningPaths(a: string, b: string)
    requires a != "" && Sep !in a && b != "" && Sep !in b
    ensures Prefixes(Segments(Doubled(a, b))) == [a, a + [Sep] + b]
  {
    DoubledSegments(a, b);
    TwoRunningPaths(a, b);
  }

  /** `a//b` has the segments `a` and `b`. */
  lemma DoubledSegments(a: string, b: string)
    requires a != "" && Sep !in a && b != "" && Sep !in b
    ensures Segments(Doubled(a, b)) == [a, b]
  {
    SplitNoSep(a);
    SplitNoSep(b);
    SplitAround("", b);
    assert "" + [Sep] + b == [Sep] + b;
    SplitAround(a, [Sep] + b);
    assert a + [Sep] + ([Sep] + b) == Doubled(a, b);
    assert Split(Doubled(a, b)) == [a, "", b];
    assert DropEmpty([a, "", b]) == [a] + DropEmpty(["", b]);
    assert DropEmpty(["", b]) == DropEmpty([b]);
  }

  /** The running paths of two segments `x` and `y` are `x` and `x/y`. */
  lemma TwoRunningPaths(x: string, y: string)
    ensures Prefixes([x, y]) == [x, x + [Sep] + y]
  {
    var segs := [x, y];
    assert segs[..1] == [x];
    assert segs[..2] == segs;
    JoinPair(x, y);
  }

  /** The core of `CreateFolderSafelyCompletes`, for any chain ending at the path. */
  lemma CompletesOnChain(v: Vault, qs: seq<string>)
    requires WellFormed(v) && Chain(qs) && |qs| > 0
    requires forall q :: q in qs && q in v ==> v[q] == Folder
    requires Prefixes(Segments(qs[|qs| - 1])) == qs
    ensures forall q :: q in qs ==> IsFolder(CreateFolderSafely(v, qs[|qs| - 1]).vault, q)
  {
    var path := qs[|qs| - 1];
    var r := CreateFolderSafely(v, path);
    if r.folder.Some? {
      CreateFolderSafelyKeepsWellFormed(v, path);
      FolderAtEndOfChain(r.vault, qs);
    } else {
      assert r.vault == Walk(v, qs).vault;
      WalkCompletes(v, qs);
    }
  }

  /** In a well-formed vault, a folder at the last path of a chain means folders at all its paths. */
  lemma FolderAtEndOfChain(w: Vault, qs: seq<string>)
    requires WellFormed(w) && Chain(qs) && |qs| > 0 && IsFolder(w, qs[|qs| - 1])
    ensures forall q :: q in qs ==> IsFolder(w, q)
  {
    ChainFolders(w, qs, |qs| - 1);
  }
}

=== FILE: host.dfy ===
/**
 * The host vault, seen through the three calls the plugin makes:
 * looking an entry up by path, creating a folder and creating a file.
 *
 * The host's own implementation is not part of this model. Its behaviour
 * is fixed here by an explicit assumption: a creation succeeds exactly
 * when the path is non-empty, nothing is stored at it yet, and it is
 * either at top level or its parent is a folder; a creation that fails
 * changes nothing. Paths are taken literally (the host's own path
 * normalisation is not modelled) and the vault root is not an entry.
 */
module Host {
  import opened Wrappers
  import opened Paths

  /** An entry of the vault tree. */
  datatype Entry = File(content: string) | Folder

  /** The vault: every stored entry, keyed by its full path. */
  type Vault = map<string, Entry>

  /** Why the host refuses a creation. */
  datatype HostError = EmptyPath | AlreadyExists | ParentMissing

  /** A folder is stored at `path`. */
  predicate IsFolder(v: Vault, path: string)
  {
    path in v && v[path] == Folder
  }

  /** `path` is at top level or its parent is a folder. */
  predicate ParentReady(v: Vault, path: string)
  {
    match ParentOf(path)
    case None => true
    case Some(parent) => IsFolder(v, parent)
  }

  /**
   * The tree invariant of a vault: every entry has a non-empty path and is
   * either at top level or sits in a folder.
   */
  predicate WellFormed(v: Vault)
  {
    forall path :: path in v ==> path != "" && ParentReady(v, path)
  }

  /** Every entry of `v` is still in `w`, unchanged. */
  predicate Keeps(v: Vault, w: Vault)
  {
    forall path :: path in v ==> path in w && w[path] == v[path]
  }

  /** `getAbstractFileByPath`: the entry at `path`, or None (null). */
  function Lookup(v: Vault, path: string): (r: Option<Entry>)
    ensures r.None? <==> path !in v
    ensures r.Some? ==> r.value == v[path]
  {
    if path in v then Some(v[path]) else None
  }

  /** Why a creation at `path` would be refused, if it would. */
  function Refusal(v: Vault, path: string): Option<HostError>
  {
    if path == "" then Some(EmptyPath)
    else if path in v then Some(AlreadyExists)
    else if !ParentReady(v, path) then Some(ParentMissing)
    else None
  }

  /** `vault.createFolder(path)` under the stated assumption. */
  function CreateFolder(v: Vault, path: string): (r: Result<Vault, HostError>)
    ensures r.Ok? <==> path != "" && path !in v && ParentReady(v, path)
    ensures r.Ok? ==> r.value.Keys == v.Keys + {path} && IsFolder(r.value, path) && Keeps(v, r.value)
  {
    match Refusal(v, path)
    case Some(e) => Err(e)
    case None => Ok(v[path := Folder])
  }

  /** `vault.create(path, content)` under the stated assumption. */
  function CreateFile(v: Vault, path: string, content: string): (r: Result<Vault, HostError>)
    ensures r.Ok? <==> path != "" && path !in v && ParentReady(v, path)
    ensures r.Ok? ==> r.value.Keys == v.Keys + {path} && r.value[path] == File(content) && Keeps(v, r.value)
  {
    match Refusal(v, path)
    case Some(e) => Err(e)
    case None => Ok(v[path := File(content)])
  }

  /** A successful folder creation keeps the tree invariant. */
  lemma CreateFolderKeepsWellFormed(v: Vault, path: string)
    requires WellFormed(v) && CreateFolder(v, path).Ok?
    ensures WellFormed(CreateFolder(v, path).value)
  {
  }

  /** A successful file creation keeps the tree invariant. */
  lemma CreateFileKeepsWellFormed(v: Vault, path: string, content: string)
    requires WellFormed(v) && CreateFile(v, path, content).Ok?
    ensures WellFormed(CreateFile(v, path, content).value)
  {
  }
}

=== FILE: modal.dfy ===
/**
 * The import dialog's confirm action: the import starts only when the
 * source path is not blank after trimming, and it scaffolds under the
 * destination folder the dialog holds.
 */
module ImportModal {
  import opened Wrappers
  import opened Paths
  import opened Host
  import opened Scaffold
  import opened PluginSettings
  import opened Folders

  /**
   * The characters JavaScript's `String.prototype.trim` removes: the
   * white-space characters (tab, vertical tab, form feed, space, no-break
   * space, byte-order mark and the other space separators) and the line
   * terminators.
   */
  predicate IsJsWhitespace(c: char)
  {
    var n := c as int;
    || n == 0x09 || n == 0x0A || n == 0x0B || n == 0x0C || n == 0x0D
    || n == 0x20 || n == 0xA0 || n == 0x1680
    || (0x2000 <= n <= 0x200A)
    || n == 0x2028 || n == 0x2029 || n == 0x202F || n == 0x205F
    || n == 0x3000 || n == 0xFEFF
  }

  /** `s` with its leading white space removed. */
  function TrimStart(s: string): (r: string)
    ensures |r| <= |s| && r == s[|s| - |r|..]
    ensures forall i :: 0 <= i < |s| - |r| ==> IsJsWhitespace(s[i])
    ensures r == [] || !IsJsWhitespace(r[0])
  {
    if |s| > 0 && IsJsWhitespace(s[0]) then TrimStart(s[1..]) else s
  }

  /** `s` with its trailing white space removed. */
  function TrimEnd(s: string): (r: string)
    ensures |r| <= |s| && r == s[..|r|]
    ensures forall i :: |r| <= i < |s| ==> IsJsWhitespace(s[i])
    ensures r == [] || !IsJsWhitespace(r[|r| - 1])
  {
    if |s| > 0 && IsJsWhitespace(s[|s| - 1]) then TrimEnd(s[..|s| - 1]) else s
  }

  /**
   * `s.trim()`. The result is empty exactly when every character of `s`
   * is white space; otherwise it starts and ends with a non-white-space
   * character.
   */
  function Trim(s: string): (r: string)
    ensures r == [] <==> forall i :: 0 <= i < |s| ==> IsJsWhitespace(s[i])
    ensures r != [] ==> !IsJsWhitespace(r[0]) && !IsJsWhitespace(r[|r| - 1])
  {
    var t := TrimStart(s);
    var r := TrimEnd(t);
    assert r == [] ==> t == [];
    assert r != [] ==> !IsJsWhitespace(r[0]) by {
      if r != [] {
        assert r[0] == t[0];
      }
    }
    r
  }

  /** The dialog's fields: the source vault path and the destination folder. */
  datatype Modal = Modal(dendronPath: string, importFolder: string)

  /** The dialog as opened: empty source path, destination from the settings. */
  function OpenModal(settings: Settings): Modal
  {
    Modal("", settings.defaultImportFolder)
  }

  /** Which notice the user sees. */
  datatype Status = NeedPath | StructureCreated | ImportFailed(error: HostError)

  /** The vault afterwards, whether the dialog is still open, and the notice shown. */
  datatype Confirmation = Confirmation(vault: Vault, modalOpen: bool, status: Status)

  /**
   * The Import button. A blank source path leaves the dialog open, shows a
   * notice and changes nothing; any other path closes the dialog and runs
   * the import into the destination folder, which reports success exactly
   * when the guide was written.
   */
  function Confirm(m: Modal, v: Vault, guide: string): (c: Confirmation)
    ensures c.modalOpen <==> forall i :: 0 <= i < |m.dendronPath| ==> IsJsWhitespace(m.dendronPath[i])
    ensures c.modalOpen ==> c.vault == v && c.status == NeedPath
    ensures !c.modalOpen ==> c.status != NeedPath && Keeps(v, c.vault)
    ensures c.status == StructureCreated ==>
              GuidePath(m.importFolder) !in v && GuidePath(m.importFolder) in c.vault
              && c.vault[GuidePath(m.importFolder)] == File(guide)
  {
    if Trim(m.dendronPath) == [] then Confirmation(v, true, NeedPath)
    else match CreateDendronFolderStructure(v, m.importFolder, guide)
      case Imported(w) => Confirmation(w, false, StructureCreated)
      case Failed(w, e) => Confirmation(w, false, ImportFailed(e))
  }

  /** Confirming the dialog as opened, with its empty source path, keeps it open and changes nothing. */
  lemma OpenedDialogNeedsPath(settings: Settings, v: Vault, guide: string)
    ensures Confirm(OpenModal(settings), v, guide) == Confirmation(v, true, NeedPath)
  {
  }

  /**
   * Confirming with a non-blank source path runs the whole import into the
   * dialog's destination folder: with a normalized destination and no file
   * on the structure paths, the dialog closes, the destination and every
   * structure path are folders, and success is reported exactly when the
   * guide path was free.
   */
  lemma ConfirmScaffolds(m: Modal, v: Vault, guide: string)
    requires Trim(m.dendronPath) != []
    requires WellFormed(v) && Normalized(m.importFolder)
    requires forall i :: 0 <= i < 25 ==> NoFileOn(v, StructurePaths(m.importFolder)[i])
    ensures var c := Confirm(m, v, guide);
            && !c.modalOpen
            && IsFolder(c.vault, m.importFolder)
            && (forall i :: 0 <= i < 25 ==> Completed(c.vault, StructurePaths(m.importFolder)[i]))
            && (c.status == StructureCreated <==> GuidePath(m.importFolder) !in v)
  {
    ScaffoldCompletes(v, m.importFolder, guide);
  }

  /** The source path is only checked for blankness: any two non-blank paths import alike. */
  lemma SourcePathOnlyGuards(m1: Modal, m2: Modal, v: Vault, guide: string)
    requires m1.importFolder == m2.importFolder
    requires Trim(m1.dendronPath) != [] && Trim(m2.dendronPath) != []
    ensures Confirm(m1, v, guide) == Confirm(m2, v, guide)
  {
  }

  /** The default destination folder is a normalized path. */
  lemma DefaultFolderNormalized()
    ensures Normalized(Defaults.defaultImportFolder)
  {
    assert Sep !in Defaults.defaultImportFolder;
    TopLevelNormalized(Defaults.defaultImportFolder);
  }

  /** The first structure path under the default destination folder. */
  lemma DefaultFirstPath()
    ensures StructurePaths(Defaults.defaultImportFolder)[0] == "Imported from Dendron/Courses/Doing"
  {
    FirstStructurePath(Defaults.defaultImportFolder);
  }

  /** The guide path under the default destination folder. */
  lemma DefaultGuidePath()
    ensures GuidePath(Defaults.defaultImportFolder) == "Imported from Dendron/IMPORT_GUIDE.md"
  {
  }

  /**
   * With the default settings and an empty vault, entering "/tmp/dendron"
   * and confirming creates the structure under "Imported from Dendron",
   * including "Imported from Dendron/Courses/Doing", and writes the guide.
   */
  lemma DefaultImportScenario(guide: string)
    ensures var m := OpenModal(LoadSettings(None)).(dendronPath := "/tmp/dendron");
            var c := Confirm(m, map[], guide);
            && !c.modalOpen
            && c.status == StructureCreated
            && IsFolder(c.vault, "Imported from Dendron")
            && IsFolder(c.vault, "Imported from Dendron/Courses/Doing")
            && "Imported from Dendron/IMPORT_GUIDE.md" in c.vault
            && c.vault["Imported from Dendron/IMPORT_GUIDE.md"] == File(guide)
  {
    var base := Defaults.defaultImportFolder;
    var m := OpenModal(LoadSettings(None)).(dendronPath := "/tmp/dendron");
    assert !IsJsWhitespace(m.dendronPath[0]);
    DefaultFolderNormalized();
    var v: Vault := map[];
    ScaffoldCompletes(v, base, guide);
    var c := Confirm(m, v, guide);
    SubfoldersValid();
    SubfolderPathSegments(base, Subfolders[0]);
    CompletedIsFolder(c.vault, StructurePaths(base)[0]);
    DefaultFirstPath();
    DefaultGuidePath();
  }
}

=== FILE: paths.dfy ===
/**
 * Slash-delimited vault paths: splitting on '/', dropping empty pieces,
 * joining, the running prefixes of the fallback walk, and parent paths.
 */
module Paths {
  import opened Wrappers

  /** The path separator. */
  const Sep: char := '/'

  /**
   * `s.split('/')`: the pieces between separators, in order. An empty
   * string splits into one empty piece, and every separator adds a piece.
   */
  function Split(s: string): (pieces: seq<string>)
    ensures |pieces| >= 1
    ensures forall i :: 0 <= i < |pieces| ==> Sep !in pieces[i]
  {
    if |s| == 0 then [""]
    else
      var rest := Split(s[1..]);
      if s[0] == Sep then [""] + rest
      else [[s[0]] + rest[0]] + rest[1..]
  }

  /** The pieces joined with one separator between neighbours. */
  function Join(parts: seq<string>): string
  {
    if |parts| == 0 then ""
    else if |parts| == 1 then parts[0]
    else parts[0] + [Sep] + Join(parts[1..])
  }

  /** `pieces.filter(part => part.length > 0)`. */
  function DropEmpty(pieces: seq<string>): (r: seq<string>)
    ensures |r| <= |pieces|
    ensures forall i :: 0 <= i < |r| ==> |r[i]| > 0 && r[i] in pieces
  {
    if |pieces| == 0 then []
    else if |pieces[0]| == 0 then DropEmpty(pieces[1..])
    else [pieces[0]] + DropEmpty(pieces[1..])
  }

  /** Every segment is non-empty and holds no separator. */
  predicate ProperSegments(segs: seq<string>)
  {
    forall i :: 0 <= i < |segs| ==> |segs[i]| > 0 && Sep !in segs[i]
  }

  /** The segments the fallback walk visits: the split with empty pieces removed. */
  function Segments(path: string): (segs: seq<string>)
    ensures ProperSegments(segs)
  {
    DropEmpty(Split(path))
  }

  /** The path with leading, trailing and repeated separators removed. */
  function Normalize(path: string): string
  {
    Join(Segments(path))
  }

  /** A non-empty path without leading, trailing or doubled separators. */
  predicate Normalized(path: string)
  {
    |Segments(path)| > 0 && Normalize(path) == path
  }

  /** The k-th running path of the walk: the first k segments joined. */
  function Prefix(segs: seq<string>, k: nat): string
    requires k <= |segs|
  {
    Join(segs[..k])
  }

  /** All running paths of the walk, shortest first. */
  function Prefixes(segs: seq<string>): (qs: seq<string>)
    ensures |qs| == |segs|
    ensures forall k :: 0 <= k < |qs| ==> qs[k] == Prefix(segs, k + 1)
  {
    seq(|segs|, k requires 0 <= k < |segs| => Prefix(segs, k + 1))
  }

  /** The folder holding `path`: everything before its last separator; None at top level. */
  function ParentOf(path: string): Option<string>
  {
    if |path| == 0 then None
    else if path[|path| - 1] == Sep then Some(path[..|path| - 1])
    else ParentOf(path[..|path| - 1])
  }

  /** `a` names a proper ancestor folder of `b`. */
  predicate IsAncestor(a: string, b: string)
  {
    |a| < |b| && b[..|a|] == a && b[|a|] == Sep
  }

  /** The characters of all pieces, in order. */
  function Concat(parts: seq<string>): string
  {
    if |parts| == 0 then "" else parts[0] + Concat(parts[1..])
  }

  /** The characters of `s` other than separators, in order. */
  function WithoutSeps(s: string): string
  {
    if |s| == 0 then ""
    else if s[0] == Sep then WithoutSeps(s[1..])
    else [s[0]] + WithoutSeps(s[1..])
  }

  // ---------------------------------------------------------------------
  // Split and Join are inverse to each other.

  /** Joining the split pieces gives back the original string. */
  lemma {:induction false} JoinSplit(s: string)
    ensures Join(Split(s)) == s
    decreases |s|
  {
    if |s| > 0 {
      JoinSplit(s[1..]);
      var rest := Split(s[1..]);
      assert s == [s[0]] + s[1..];
      if s[0] == Sep {
        assert ([""] + rest)[1..] == rest;
      } else {
        var head := [s[0]] + rest[0];
        if |rest| > 1 {
          assert ([head] + rest[1..])[1..] == rest[1..];
        }
      }
    }
  }

  /** A string without separators splits into itself. */
  lemma {:induction false} SplitNoSep(s: string)
    requires Sep !in s
    ensures Split(s) == [s]
    decreases |s|
  {
    if |s| > 0 {
      assert Sep !in s[1..] by {
        forall i | 0 <= i < |s[1..]| ensures s[1..][i] != Sep {
          assert s[1..][i] == s[i + 1];
        }
      }
      SplitNoSep(s[1..]);
      assert s == [s[0]] + s[1..];
    }
  }

  /** Splitting at a separator splits both sides independently. */
  lemma {:induction false} SplitAround(a: string, b: string)
    ensures Split(a + [Sep] + b) == Split(a) + Split(b)
    decreases |a|
  {
    var s := a + [Sep] + b;
    if |a| == 0 {
      assert s == [Sep] + b;
      assert s[1..] == b;
    } else {
      var t := a[1..] + [Sep] + b;
      assert s == [a[0]] + t;
      assert s[1..] == t;
      SplitAround(a[1..], b);
      SplitCons(a[0], a[1..]);
      SplitCons(a[0], t);
    }
  }

  /** Split of a string given by its first character and the rest. */
  lemma SplitCons(c: char, t: string)
    ensures Split([c] + t) ==
      (if c == Sep then [""] + Split(t)
       else [[c] + Split(t)[0]] + Split(t)[1..])
  {
    assert ([c] + t)[1..] == t;
  }

  /** Splitting a join of separator-free pieces gives back the pieces. */
  lemma {:induction false} SplitJoin(parts: seq<string>)
    requires |parts| >= 1
    requires forall i :: 0 <= i < |parts| ==> Sep !in parts[i]
    ensures Split(Join(parts)) == parts
    decreases |parts|
  {
    SplitNoSep(parts[0]);
    if |parts| > 1 {
      SplitJoin(parts[1..]);
      SplitAround(parts[0], Join(parts[1..]));
      assert parts == [parts[0]] + parts[1..];
    }
  }

  // ---------------------------------------------------------------------
  // Filtering out empty pieces.

  /** Filtering distributes over concatenation, so the order of pieces is kept. */
  lemma {:induction false} DropEmptyAppend(a: seq<string>, b: seq<string>)
    ensures DropEmpty(a + b) == DropEmpty(a) + DropEmpty(b)
    decreases |a|
  {
    if |a| > 0 {
      assert (a + b)[0] == a[0];
      assert (a + b)[1..] == a[1..] + b;
      DropEmptyAppend(a[1..], b);
      if |a[0]| > 0 {
        calc {
          DropEmpty(a + b);
          [a[0]] + DropEmpty(a[1..] + b);
          [a[0]] + (DropEmpty(a[1..]) + DropEmpty(b));
          ([a[0]] + DropEmpty(a[1..])) + DropEmpty(b);
        }
      } else {
        assert DropEmpty(a + b) == DropEmpty(a[1..] + b);
      }
    } else {
      assert a + b == b;
    }
  }

  /** Filtering keeps exactly the non-empty pieces. */
  lemma {:induction false} DropEmptyMembers(pieces: seq<string>, x: string)
    ensures x in DropEmpty(pieces) <==> x in pieces && |x| > 0
    decreases |pieces|
  {
    if |pieces| > 0 {
      DropEmptyMembers(pieces[1..], x);
      assert x in pieces <==> x == pieces[0] || x in pieces[1..];
    }
  }

  /** Filtering keeps a list whose pieces are all non-empty. */
  lemma {:induction false} DropEmptyKeepsProper(parts: seq<string>)
    requires forall i :: 0 <= i < |parts| ==> |parts[i]| > 0
    ensures DropEmpty(parts) == parts
    decreases |parts|
  {
    if |parts| > 0 {
      var rest := parts[1..];
      assert |parts[0]| > 0;
      forall i | 0 <= i < |rest|
        ensures |rest[i]| > 0
      {
        assert rest[i] == parts[i + 1];
      }
      DropEmptyKeepsProper(rest);
      assert DropEmpty(parts) == [parts[0]] + rest;
    }
  }

  /** Filtering loses no character: only empty pieces are removed. */
  lemma {:induction false} ConcatDropEmpty(pieces: seq<string>)
    ensures Concat(DropEmpty(pieces)) == Concat(pieces)
    decreases |pieces|
  {
    if |pieces| > 0 {
      ConcatDropEmpty(pieces[1..]);
      if |pieces[0]| > 0 {
        assert ([pieces[0]] + DropEmpty(pieces[1..]))[1..] == DropEmpty(pieces[1..]);
      }
    }
  }

  /** The split pieces hold exactly the non-separator characters, in order. */
  lemma {:induction false} ConcatSplit(s: string)
    ensures Concat(Split(s)) == WithoutSeps(s)
    decreases |s|
  {
    if |s| > 0 {
      ConcatSplit(s[1..]);
      var rest := Split(s[1..]);
      if s[0] == Sep {
        assert ([""] + rest)[1..] == rest;
      } else {
        var head := [s[0]] + rest[0];
        assert ([head] + rest[1..])[1..] == rest[1..];
        assert Concat(rest) == rest[0] + Concat(rest[1..]);
      }
    }
  }

  // ---------------------------------------------------------------------
  // Segments.

  /**
   * The segments hold every non-separator character of the path in order
   * and nothing else.
   */
  lemma SegmentsKeepCharacters(path: string)
    ensures Concat(Segments(path)) == WithoutSeps(path)
  {
    ConcatDropEmpty(Split(path));
    ConcatSplit(path);
  }

  /** A path joined from proper segments splits back into those segments. */
  lemma SegmentsOfJoin(segs: seq<string>)
    requires ProperSegments(segs)
    ensures Segments(Join(segs)) == segs
  {
    if |segs| > 0 {
      SplitJoin(segs);
      DropEmptyKeepsProper(segs);
    }
  }

  /** Normalizing twice is normalizing once; a path with a segment normalizes to a normalized path. */
  lemma NormalizeIdempotent(path: string)
    ensures Segments(Normalize(path)) == Segments(path)
    ensures Normalize(Normalize(path)) == Normalize(path)
    ensures |Segments(path)| > 0 ==> Normalized(Normalize(path))
  {
    SegmentsOfJoin(Segments(path));
  }

  /** A non-empty name without separators is a normalized path. */
  lemma TopLevelNormalized(name: string)
    requires |name| > 0 && Sep !in name
    ensures Segments(name) == [name]
    ensures Normalized(name)
  {
    SplitNoSep(name);
    DropEmptyKeepsProper([name]);
  }

  /** Two normalized paths joined by a separator form a normalized path. */
  lemma {:induction false} NormalizedChild(a: string, b: string)
    requires Normalized(a) && Normalized(b)
    ensures Segments(a + [Sep] + b) == Segments(a) + Segments(b)
    ensures Normalized(a + [Sep] + b)
  {
    SplitAround(a, b);
    DropEmptyAppend(Split(a), Split(b));
    JoinAppend(Segments(a), Segments(b));
  }

  // ---------------------------------------------------------------------
  // Joins, running prefixes and parents.

  /** Joining two non-empty lists puts one separator between their joins. */
  lemma {:induction false} JoinAppend(xs: seq<string>, ys: seq<string>)
    requires |xs| >= 1 && |ys| >= 1
    ensures Join(xs + ys) == Join(xs) + [Sep] + Join(ys)
    decreases |xs|
  {
    if |xs| == 1 {
      assert (xs + ys)[1..] == ys;
    } else {
      JoinAppend(xs[1..], ys);
      assert (xs + ys)[1..] == xs[1..] + ys;
    }
  }

  /** Each running path extends the previous one by a separator and the next segment. */
  lemma PrefixStep(segs: seq<string>, k: nat)
    requires 1 <= k < |segs|
    ensures Prefix(segs, k + 1) == Prefix(segs, k) + [Sep] + segs[k]
  {
    assert segs[..k + 1] == segs[..k] + [segs[k]];
    JoinAppend(segs[..k], [segs[k]]);
  }

  /** A path ending in a separator-free name has the part before the last separator as parent. */
  lemma {:induction false} ParentOfChild(a: string, b: string)
    requires Sep !in b
    ensures ParentOf(a + [Sep] + b) == Some(a)
    decreases |b|
  {
    var p := a + [Sep] + b;
    if |b| > 0 {
      assert p[|p| - 1] == b[|b| - 1];
      assert p[..|p| - 1] == a + [Sep] + b[..|b| - 1];
      ParentOfChild(a, b[..|b| - 1]);
    } else {
      assert p[..|p| - 1] == a;
    }
  }

  /** A path without separators is at top level. */
  lemma {:induction false} ParentOfTopLevel(s: string)
    requires Sep !in s
    ensures ParentOf(s) == None
    decreases |s|
  {
    if |s| > 0 {
      assert s[|s| - 1] in s;
      ParentOfTopLevel(s[..|s| - 1]);
    }
  }

  /** A path at top level holds no separator: the converse of `ParentOfTopLevel`. */
  lemma {:induction false} TopLevelHasNoSep(path: string)
    requires ParentOf(path) == None
    ensures Sep !in path
    decreases |path|
  {
    if |path| > 0 {
      TopLevelHasNoSep(path[..|path| - 1]);
      assert path == path[..|path| - 1] + [path[|path| - 1]];
    }
  }

  /** A path with a parent is that parent, a separator, and a separator-free name. */
  lemma {:induction false} ParentSplits(path: string)
    requires ParentOf(path).Some?
    ensures var a := ParentOf(path).value;
            |a| < |path| && path == a + [Sep] + path[|a| + 1..] && Sep !in path[|a| + 1..]
    decreases |path|
  {
    var n := |path|;
    if path[n - 1] != Sep {
      var init, c := path[..n - 1], path[n - 1];
      ParentSplits(init);
      var a := ParentOf(init).value;
      var name := init[|a| + 1..];
      assert path == init + [c];
      assert path == a + [Sep] + (name + [c]);
      assert path[|a| + 1..] == name + [c];
    } else {
      assert path == path[..n - 1] + [Sep] + path[n..];
    }
  }

  /** A path and its parent begin with the same piece. */
  lemma ParentKeepsFirstPiece(path: string)
    requires ParentOf(path).Some?
    ensures Split(ParentOf(path).value)[0] == Split(path)[0]
  {
    var a := ParentOf(path).value;
    ParentSplits(path);
    SplitAround(a, path[|a| + 1..]);
  }

  /**
   * A chain of folder paths: none is empty, the first is at top level, and
   * the parent of each later one is the one before it.
   */
  predicate Chain(qs: seq<string>)
  {
    && (forall k :: 0 <= k < |qs| ==> qs[k] != "")
    && (|qs| > 0 ==> ParentOf(qs[0]) == None)
    && (forall k :: 1 <= k < |qs| ==> ParentOf(qs[k]) == Some(qs[k - 1]))
  }

  /** Two pieces join around one separator. */
  lemma JoinPair(a: string, b: string)
    ensures Join([a, b]) == a + [Sep] + b
  {
    assert [a, b][1..] == [b];
  }

  /** Dropping the last path of a chain leaves a chain. */
  lemma ChainInit(qs: seq<string>)
    requires Chain(qs) && |qs| > 0
    ensures Chain(qs[..|qs| - 1])
  {
    var init := qs[..|qs| - 1];
    forall k | 1 <= k < |init|
      ensures ParentOf(init[k]) == Some(init[k - 1])
    {
      assert init[k] == qs[k] && init[k - 1] == qs[k - 1];
    }
  }

  /** The running paths of proper segments form a chain. */
  lemma PrefixesChain(segs: seq<string>)
    requires ProperSegments(segs)
    ensures Chain(Prefixes(segs))
  {
    var qs := Prefixes(segs);
    if |segs| > 0 {
      assert segs[..1] == [segs[0]];
      ParentOfTopLevel(segs[0]);
    }
    forall k | 1 <= k < |segs|
      ensures ParentOf(qs[k]) == Some(qs[k - 1])
    {
      PrefixStep(segs, k);
      ParentOfChild(qs[k - 1], segs[k]);
    }
    forall k | 0 <= k < |segs|
      ensures qs[k] != ""
    {
      if k == 0 {
        assert segs[..1] == [segs[0]];
      } else {
        PrefixStep(segs, k);
      }
    }
  }

  /** A parent is shorter than its child. */
  lemma {:induction false} ParentShorter(path: string)
    requires ParentOf(path).Some?
    ensures |ParentOf(path).value| < |path|
    decreases |path|
  {
    if path[|path| - 1] != Sep {
      ParentShorter(path[..|path| - 1]);
    }
  }

  /** The paths of a chain grow strictly longer, so no path occurs twice. */
  lemma {:induction false} ChainGrows(qs: seq<string>, j: nat, k: nat)
    requires Chain(qs) && j < k < |qs|
    ensures |qs[j]| < |qs[k]|
    decreases k - j
  {
    assert ParentOf(qs[k]) == Some(qs[k - 1]);
    ParentShorter(qs[k]);
    if j < k - 1 {
      ChainGrows(qs, j, k - 1);
    }
  }

  /** The last path of a chain does not occur earlier in it. */
  lemma ChainLastIsNew(qs: seq<string>)
    requires Chain(qs) && |qs| >= 1
    ensures qs[|qs| - 1] !in qs[..|qs| - 1]
  {
    if qs[|qs| - 1] in qs[..|qs| - 1] {
      var j :| 0 <= j < |qs| - 1 && qs[..|qs| - 1][j] == qs[|qs| - 1];
      ChainGrows(qs, j, |qs| - 1);
    }
  }

  /** Ancestry is transitive. */
  lemma AncestorTransitive(a: string, b: string, c: string)
    requires IsAncestor(a, b) && IsAncestor(b, c)
    ensures IsAncestor(a, c)
  {
    assert c[..|b|][..|a|] == c[..|a|];
    assert c[..|b|][|a|] == c[|a|];
  }

  /** Earlier running paths are proper ancestors of later ones. */
  lemma {:induction false} PrefixAncestors(segs: seq<string>, j: nat, k: nat)
    requires 1 <= j < k <= |segs|
    ensures IsAncestor(Prefix(segs, j), Prefix(segs, k))
    decreases k - j
  {
    PrefixStep(segs, k - 1);
    var a := Prefix(segs, k - 1);
    assert IsAncestor(a, Prefix(segs, k)) by {
      assert Prefix(segs, k)[..|a|] == a;
    }
    if j < k - 1 {
      PrefixAncestors(segs, j, k - 1);
      AncestorTransitive(Prefix(segs, j), a, Prefix(segs, k));
    }
  }

  /** The last running path is the normalized path. */
  lemma LastPrefixIsNormalized(path: string)
    requires |Segments(path)| > 0
    ensures Prefixes(Segments(path))[|Segments(path)| - 1] == Normalize(path)
  {
    var segs := Segments(path);
    assert segs[..|segs|] == segs;
  }
}

=== FILE: scaffold.dfy ===
/**
 * `createDendronFolderStructure`: ensure the fixed list of folders under a
 * base path, one after another in the authored order, then write the
 * import guide into the base folder.
 */
module Scaffold {
  import opened Wrappers
  import opened Paths
  import opened Host
  import opened Folders

  /**
   * The subfolders created under the base path, in the authored order,
   * each given by its segments (["Courses", "Doing"] is "Courses/Doing").
   */
  const Subfolders: seq<seq<string>> :=
    CourseFolders + ProjectFolders + WebFolders + MoreWebFolders + WorkFolders + ReferenceFolders

  /** Courses and the daily notes. */
  const CourseFolders: seq<seq<string>> := [
    ["Courses", "Doing"],
    ["Courses", "Done"],
    ["Courses", "Todo"],
    ["Daily"]
  ]

  /** Projects. */
  const ProjectFolders: seq<seq<string>> := [
    ["Projects", "Doing"],
    ["Projects", "Done"],
    ["Projects", "Ideas"]
  ]

  /** Web resources, by topic: the first half. */
  const WebFolders: seq<seq<string>> := [
    ["Web-Resources", "Authentication"],
    ["Web-Resources", "CSS"],
    ["Web-Resources", "Docker"],
    ["Web-Resources", "GraphQL"]
  ]

  /** Web resources, by topic: the second half. */
  const MoreWebFolders: seq<seq<string>> := [
    ["Web-Resources", "NextJS"],
    ["Web-Resources", "React"],
    ["Web-Resources", "Testing"],
    ["Web-Resources", "General"]
  ]

  /** Work material. */
  const WorkFolders: seq<seq<string>> := [
    ["Guidewire", "Education"],
    ["Guidewire", "Training"],
    ["Boilerplates"],
    ["Testing"]
  ]

  /** Technical references, interviews, jobs and references. */
  const ReferenceFolders: seq<seq<string>> := [
    ["Technical", "Git"],
    ["Technical", "Database"],
    ["Technical", "Languages"],
    ["Interviews"],
    ["Jobs"],
    ["References"]
  ]

  /** The name of the guide file written into the base folder. */
  const GuideName: string := "IMPORT_GUIDE.md"

  /** What the import leaves behind: the vault, and the error if the guide could not be written. */
  datatype ImportResult = Imported(vault: Vault) | Failed(vault: Vault, error: HostError)

  /**
   * A usable subfolder: it has proper segments, and none of its running
   * paths is the guide's name.
   */
  predicate ValidSubfolder(sub: seq<string>)
  {
    && |sub| >= 1
    && ProperSegments(sub)
    && (forall j :: 1 <= j <= |sub| ==> Join(sub[..j]) != GuideName)
  }

  /** A usable subfolder list. */
  predicate ValidSubfolders(subs: seq<seq<string>>)
  {
    forall i :: 0 <= i < |subs| ==> ValidSubfolder(subs[i])
  }

  /** The paths `base/sub` for the subfolders `subs`, in order. */
  function PathsUnder(base: string, subs: seq<seq<string>>): (paths: seq<string>)
    requires ValidSubfolders(subs)
    ensures |paths| == |subs|
    ensures forall i :: 0 <= i < |paths| ==>
              |base| + 1 < |paths[i]| && paths[i][..|base| + 1] == base + [Sep]
  {
    seq(|subs|, i requires 0 <= i < |subs| => base + [Sep] + Join(subs[i]))
  }

  /** The folder paths of the structure: every path is the base, a separator and a subfolder. */
  function StructurePaths(base: string): (paths: seq<string>)
    ensures |paths| == 25
    ensures forall i :: 0 <= i < |paths| ==>
              |base| + 1 < |paths[i]| && paths[i][..|base| + 1] == base + [Sep]
  {
    SubfoldersValid();
    PathsUnder(base, Subfolders)
  }

  /** The first structure path is `base/Courses/Doing`. */
  lemma FirstStructurePath(base: string)
    ensures StructurePaths(base)[0] == base + [Sep] + "Courses" + [Sep] + "Doing"
  {
    SubfoldersValid();
    var first := Subfolders[0];
    assert first == CourseFolders[0];
    JoinPair(first[0], first[1]);
  }

  /** Where the guide is written. */
  function GuidePath(base: string): string
  {
    base + [Sep] + GuideName
  }

  /**
   * `createFolderSafely` awaited on each path in turn. The folder stage
   * never fails, never replaces or changes a stored entry and adds only
   * folders; `EnsureAllKeepsWellFormed` shows it keeps the tree invariant.
   */
  function EnsureAll(v: Vault, paths: seq<string>): (w: Vault)
    ensures Keeps(v, w)
    ensures forall q :: q in w && q !in v ==> w[q] == Folder
    decreases |paths|
  {
    if |paths| == 0 then v
    else CreateFolderSafely(EnsureAll(v, paths[..|paths| - 1]), paths[|paths| - 1]).vault
  }

  /**
   * `createDendronFolderStructure(base)` together with the catch in
   * `importFromDendron`: the folder stage, then the guide; a refused guide
   * write is reported as a failure and the folders already made stay.
   */
  function CreateDendronFolderStructure(v: Vault, base: string, guide: string): (r: ImportResult)
    ensures Keeps(v, r.vault)
    ensures forall q :: q in r.vault && q !in v && q != GuidePath(base) ==> r.vault[q] == Folder
    ensures r.Imported? ==> GuidePath(base) !in v && GuidePath(base) in r.vault && r.vault[GuidePath(base)] == File(guide)
    ensures r.Failed? ==> forall q :: q in r.vault && q !in v ==> r.vault[q] == Folder
  {
    var w := EnsureAll(v, StructurePaths(base));
    match CreateFile(w, GuidePath(base), guide)
    case Ok(written) => Imported(written)
    case Err(e) => Failed(w, e)
  }

  /** The folder stage keeps the tree invariant. */
  lemma {:induction false} EnsureAllKeepsWellFormed(v: Vault, paths: seq<string>)
    requires WellFormed(v)
    ensures WellFormed(EnsureAll(v, paths))
    decreases |paths|
  {
    if |paths| > 0 {
      EnsureAllKeepsWellFormed(v, paths[..|paths| - 1]);
      CreateFolderSafelyKeepsWellFormed(EnsureAll(v, paths[..|paths| - 1]), paths[|paths| - 1]);
    }
  }

  /** Scaffolding keeps the tree invariant, whether or not the guide is written. */
  lemma CreateDendronFolderStructureKeepsWellFormed(v: Vault, base: string, guide: string)
    requires WellFormed(v)
    ensures WellFormed(CreateDendronFolderStructure(v, base, guide).vault)
  {
    var w := EnsureAll(v, StructurePaths(base));
    EnsureAllKeepsWellFormed(v, StructurePaths(base));
    if CreateFile(w, GuidePath(base), guide).Ok? {
      CreateFileKeepsWellFormed(w, GuidePath(base), guide);
    }
  }

  // ---------------------------------------------------------------------
  // The fixed subfolder list.

  /** A join of two or more segments holds a separator. */
  lemma JoinOfSeveralHasSep(xs: seq<string>)
    requires |xs| >= 2
    ensures Sep in Join(xs)
  {
    assert Join(xs)[|xs[0]|] == Sep;
  }

  /** A subfolder of one or two proper segments, the first not as long as the guide's name, is usable. */
  lemma ShortSubfolderValid(sub: seq<string>)
    requires 1 <= |sub| <= 2 && ProperSegments(sub) && |sub[0]| != |GuideName|
    ensures ValidSubfolder(sub)
  {
    forall j | 1 <= j <= |sub|
      ensures Join(sub[..j]) != GuideName
    {
      if j == 2 {
        JoinOfSeveralHasSep(sub[..j]);
        assert Sep !in GuideName;
      } else {
        assert sub[..j] == [sub[0]];
      }
    }
  }

  /**
   * Every entry has one or two proper segments, the first not as long as
   * the guide's name.
   */
  predicate ShortSubfolders(subs: seq<seq<string>>)
  {
    forall i :: 0 <= i < |subs| ==>
      1 <= |subs[i]| <= 2 && ProperSegments(subs[i]) && |subs[i][0]| != |GuideName|
  }

  /** A list of short, proper subfolders is usable. */
  lemma ShortSubfoldersValid(subs: seq<seq<string>>)
    requires ShortSubfolders(subs)
    ensures ValidSubfolders(subs)
  {
    forall i | 0 <= i < |subs|
      ensures ValidSubfolder(subs[i])
    {
      ShortSubfolderValid(subs[i]);
    }
  }

  /** Two lists of short subfolders, one after the other, form one. */
  lemma ShortSubfoldersAppend(a: seq<seq<string>>, b: seq<seq<string>>)
    requires ShortSubfolders(a) && ShortSubfolders(b)
    ensures ShortSubfolders(a + b)
  {
    forall i | 0 <= i < |a + b|
      ensures 1 <= |(a + b)[i]| <= 2 && ProperSegments((a + b)[i]) && |(a + b)[i][0]| != |GuideName|
    {
      if i >= |a| {
        assert (a + b)[i] == b[i - |a|];
      }
    }
  }

  /** Every entry of `CourseFolders` is short and proper. */
  lemma CourseFoldersShort()
    ensures ShortSubfolders(CourseFolders)
  {
  }

  /** Every entry of `ProjectFolders` is short and proper. */
  lemma ProjectFoldersShort()
    ensures ShortSubfolders(ProjectFolders)
  {
  }

  /** Every entry of `WebFolders` is short and proper. */
  lemma WebFoldersShort()
    ensures ShortSubfolders(WebFolders)
  {
  }

  /** Every entry of `MoreWebFolders` is short and proper. */
  lemma MoreWebFoldersShort()
    ensures ShortSubfolders(MoreWebFolders)
  {
  }

  /** Every entry of `WorkFolders` is short and proper. */
  lemma WorkFoldersShort()
    ensures ShortSubfolders(WorkFolders)
  {
  }

  /** Every entry of `ReferenceFolders` is short and proper. */
  lemma ReferenceFoldersShort()
    ensures ShortSubfolders(ReferenceFolders)
  {
  }

  /** The fixed subfolder list is usable. */
  lemma SubfoldersValid()
    ensures ValidSubfolders(Subfolders)
  {
    CourseFoldersShort();
    ProjectFoldersShort();
    WebFoldersShort();
    MoreWebFoldersShort();
    WorkFoldersShort();
    ReferenceFoldersShort();
    ShortSubfoldersAppend(CourseFolders, ProjectFolders);
    ShortSubfoldersAppend(CourseFolders + ProjectFolders, WebFolders);
    ShortSubfoldersAppend(CourseFolders + ProjectFolders + WebFolders, MoreWebFolders);
    ShortSubfoldersAppend(CourseFolders + ProjectFolders + WebFolders + MoreWebFolders, WorkFolders);
    ShortSubfoldersAppend(CourseFolders + ProjectFolders + WebFolders + MoreWebFolders + WorkFolders, ReferenceFolders);
    ShortSubfoldersValid(Subfolders);
  }

  // ---------------------------------------------------------------------
  // Proofs, for any usable subfolder list.

  /** `q` lies on `path`: it is the path or one of its running paths. */
  predicate OnPath(q: string, path: string)
  {
    q == path || q in Prefixes(Segments(path))
  }

  /** A normalized base joined with a subfolder is normalized and has the base's segments first. */
  lemma SubfolderPathSegments(base: string, sub: seq<string>)
    requires Normalized(base) && |sub| >= 1 && ProperSegments(sub)
    ensures Segments(base + [Sep] + Join(sub)) == Segments(base) + sub
    ensures Normalized(base + [Sep] + Join(sub))
  {
    SegmentsOfJoin(sub);
    NormalizedChild(base, Join(sub));
  }

  /** A running path is no longer than the whole join. */
  lemma PrefixShort(bs: seq<string>, k: nat)
    requires ProperSegments(bs) && 1 <= k <= |bs|
    ensures |Prefix(bs, k)| <= |Join(bs)|
  {
    assert bs[..|bs|] == bs;
    if k < |bs| {
      PrefixAncestors(bs, k, |bs|);
    }
  }

  /** A running path reaching past `bs` is the join of `bs`, a separator and a running path of `sub`. */
  lemma TailPrefix(bs: seq<string>, sub: seq<string>, k: nat)
    requires |bs| >= 1 && |bs| < k <= |bs| + |sub|
    ensures Prefix(bs + sub, k) == Join(bs) + [Sep] + Join(sub[..k - |bs|])
  {
    assert (bs + sub)[..k] == bs + sub[..k - |bs|];
    JoinAppend(bs, sub[..k - |bs|]);
  }

  /**
   * No running path of the segments `bs` followed by a subfolder `sub` is
   * the guide path under the join of `bs`, when no running path of `sub`
   * is the guide's name.
   */
  lemma GuideNotOnChild(bs: seq<string>, sub: seq<string>)
    requires ProperSegments(bs) && |bs| >= 1
    requires forall j :: 1 <= j <= |sub| ==> Join(sub[..j]) != GuideName
    ensures forall k :: 1 <= k <= |bs + sub| ==> Prefix(bs + sub, k) != Join(bs) + [Sep] + GuideName
  {
    var base := Join(bs);
    var segs := bs + sub;
    forall k | 1 <= k <= |segs|
      ensures Prefix(segs, k) != base + [Sep] + GuideName
    {
      if k <= |bs| {
        assert segs[..k] == bs[..k];
        PrefixShort(bs, k);
      } else {
        var rest := Join(sub[..k - |bs|]);
        TailPrefix(bs, sub, k);
        assert rest != GuideName;
        assert (base + [Sep] + rest)[|base| + 1..] == rest;
        assert (base + [Sep] + GuideName)[|base| + 1..] == GuideName;
      }
    }
  }

  /** No running path of the base joined with a subfolder `sub` is the guide path. */
  lemma GuideNotOnSubfolderPath(base: string, sub: seq<string>)
    requires Normalized(base) && |sub| >= 1 && ProperSegments(sub)
    requires forall j :: 1 <= j <= |sub| ==> Join(sub[..j]) != GuideName
    ensures !OnPath(GuidePath(base), base + [Sep] + Join(sub))
  {
    var p := base + [Sep] + Join(sub);
    SubfolderPathSegments(base, sub);
    var segs := Segments(p);
    GuideNotOnChild(Segments(base), sub);
    var g := GuidePath(base);
    assert g == Join(Segments(base)) + [Sep] + GuideName;
    forall k | 0 <= k < |segs|
      ensures Prefixes(segs)[k] != g
    {
      assert Prefixes(segs)[k] == Prefix(Segments(base) + sub, k + 1);
    }
    LastPrefixIsNormalized(p);
    assert p == Prefixes(segs)[|segs| - 1];
  }

  /**
   * The paths are processed in order: the folder stage over `a + b` is the
   * stage over `a` followed by the stage over `b`.
   */
  lemma {:induction false} EnsureAllAppend(v: Vault, a: seq<string>, b: seq<string>)
    ensures EnsureAll(v, a + b) == EnsureAll(EnsureAll(v, a), b)
    decreases |b|
  {
    if |b| > 0 {
      var ab := a + b;
      var b0 := b[..|b| - 1];
      assert ab[..|ab| - 1] == a + b0;
      assert ab[|ab| - 1] == b[|b| - 1];
      EnsureAllAppend(v, a, b0);
      EnsureAllLast(v, ab);
      EnsureAllLast(EnsureAll(v, a), b);
    } else {
      assert a + b == a;
    }
  }

  /** The folder stage never creates an entry at a path lying on none of the processed paths. */
  lemma {:induction false} EnsureAllAvoids(v: Vault, paths: seq<string>, g: string)
    requires g !in v
    requires forall i :: 0 <= i < |paths| ==> !OnPath(g, paths[i])
    ensures g !in EnsureAll(v, paths)
    decreases |paths|
  {
    if |paths| > 0 {
      EnsureAllAvoids(v, paths[..|paths| - 1], g);
    }
  }

  /**
   * The folder stage over normalized paths with no file on any of their
   * running paths leaves every running path of every path a folder.
   */
  lemma {:induction false} EnsureAllCompletes(v: Vault, paths: seq<string>)
    requires WellFormed(v)
    requires forall i :: 0 <= i < |paths| ==> Normalized(paths[i]) && NoFileOn(v, paths[i])
    ensures forall i :: 0 <= i < |paths| ==> Completed(EnsureAll(v, paths), paths[i])
    decreases |paths|
  {
    if |paths| > 0 {
      var init := paths[..|paths| - 1];
      EnsureAllCompletes(v, init);
      forall i | 0 <= i < |paths| - 1
        ensures Completed(EnsureAll(v, init), paths[i])
      {
        assert init[i] == paths[i];
      }
      EnsureAllCompletesStep(v, paths);
    }
  }

  /** The induction step of `EnsureAllCompletes`: one more path is completed, earlier ones stay so. */
  lemma EnsureAllCompletesStep(v: Vault, paths: seq<string>)
    requires WellFormed(v) && |paths| > 0
    requires Normalized(paths[|paths| - 1]) && NoFileOn(v, paths[|paths| - 1])
    requires forall i :: 0 <= i < |paths| - 1 ==> Completed(EnsureAll(v, paths[..|paths| - 1]), paths[i])
    ensures forall i :: 0 <= i < |paths| ==> Completed(EnsureAll(v, paths), paths[i])
  {
    var n := |paths|;
    var init, last := paths[..n - 1], paths[n - 1];
    var mid := EnsureAll(v, init);
    EnsureAllKeepsWellFormed(v, init);
    NoFileOnKept(v, mid, last);
    CreateFolderSafelyCompletes(mid, last);
    EnsureAllLast(v, paths);
    var w := EnsureAll(v, paths);
    CompletedAllKept(mid, w, init);
    CompletedExtend(paths, init, w);
  }

  /** Completed paths for all but the last, and the last completed too: all completed. */
  lemma CompletedExtend(paths: seq<string>, init: seq<string>, w: Vault)
    requires |paths| > 0 && init == paths[..|paths| - 1]
    requires forall i :: 0 <= i < |init| ==> Completed(w, init[i])
    requires Completed(w, paths[|paths| - 1])
    ensures forall i :: 0 <= i < |paths| ==> Completed(w, paths[i])
  {
    forall i | 0 <= i < |paths| - 1
      ensures Completed(w, paths[i])
    {
      assert init[i] == paths[i];
    }
  }

  /** The folder stage's last step. */
  lemma EnsureAllLast(v: Vault, paths: seq<string>)
    requires |paths| > 0
    ensures EnsureAll(v, paths) == CreateFolderSafely(EnsureAll(v, paths[..|paths| - 1]), paths[|paths| - 1]).vault
  {
  }

  /** Growing a vault without replacing entries keeps a completed path completed. */
  lemma CompletedKept(v: Vault, w: Vault, path: string)
    requires Keeps(v, w) && Completed(v, path)
    ensures Completed(w, path)
  {
  }

  /** Growing a vault without replacing entries keeps completed paths completed. */
  lemma CompletedAllKept(v: Vault, w: Vault, paths: seq<string>)
    requires Keeps(v, w)
    requires forall i :: 0 <= i < |paths| ==> Completed(v, paths[i])
    ensures forall i :: 0 <= i < |paths| ==> Completed(w, paths[i])
  {
  }

  /** Growing a vault by folders only keeps a path free of files. */
  lemma NoFileOnKept(v: Vault, w: Vault, path: string)
    requires Keeps(v, w) && NoFileOn(v, path)
    requires forall q :: q in w && q !in v ==> w[q] == Folder
    ensures NoFileOn(w, path)
  {
  }

  /** A completed subfolder path has its base as a folder. */
  lemma BaseFolderOfCompleted(w: Vault, base: string, sub: seq<string>)
    requires Normalized(base) && |sub| >= 1 && ProperSegments(sub)
    requires Completed(w, base + [Sep] + Join(sub))
    ensures IsFolder(w, base)
  {
    SubfolderPathSegments(base, sub);
    var segs := Segments(base + [Sep] + Join(sub));
    var m := |Segments(base)|;
    assert segs[..m] == Segments(base);
    assert Prefixes(segs)[m - 1] == base;
  }

  /**
   * The folder stage over the paths under a normalized base, from a
   * well-formed vault with no file on any of them, leaves the base and
   * every running path of every path a folder.
   */
  lemma FolderStageUnder(v: Vault, base: string, subs: seq<seq<string>>)
    requires WellFormed(v) && Normalized(base)
    requires ValidSubfolders(subs) && |subs| >= 1
    requires forall i :: 0 <= i < |subs| ==> NoFileOn(v, PathsUnder(base, subs)[i])
    ensures var w := EnsureAll(v, PathsUnder(base, subs));
            && IsFolder(w, base)
            && (forall i :: 0 <= i < |subs| ==> Completed(w, PathsUnder(base, subs)[i]))
  {
    var paths := PathsUnder(base, subs);
    forall i | 0 <= i < |subs|
      ensures Normalized(paths[i])
    {
      SubfolderPathSegments(base, subs[i]);
    }
    EnsureAllCompletes(v, paths);
    var w := EnsureAll(v, paths);
    var first := base + [Sep] + Join(subs[0]);
    assert paths[0] == first;
    assert Completed(w, first);
    BaseFolderOfCompleted(w, base, subs[0]);
  }

  /** The folder stage over the paths under a normalized base leaves a free guide path free. */
  lemma FolderStageAvoidsGuide(v: Vault, base: string, subs: seq<seq<string>>)
    requires Normalized(base) && ValidSubfolders(subs)
    requires GuidePath(base) !in v
    ensures GuidePath(base) !in EnsureAll(v, PathsUnder(base, subs))
  {
    var paths := PathsUnder(base, subs);
    var g := GuidePath(base);
    forall i | 0 <= i < |subs|
      ensures !OnPath(g, paths[i])
    {
      assert paths[i] == base + [Sep] + Join(subs[i]);
      GuideNotOnSubfolderPath(base, subs[i]);
    }
    EnsureAllAvoids(v, paths, g);
  }

  /** The guide file can be created once its base folder exists and its path is free. */
  lemma GuideWritable(w: Vault, base: string, guide: string)
    requires IsFolder(w, base) && GuidePath(base) !in w
    ensures CreateFile(w, GuidePath(base), guide).Ok?
  {
    assert Sep !in GuideName;
    ParentOfChild(base, GuideName);
  }

  /**
   * Scaffolding from a well-formed vault with a normalized base path and no
   * file on any structure path: afterwards the base folder and every
   * structure folder, with all their ancestors, exist, and the guide is
   * written, after the folders, exactly when its path was free.
   */
  lemma ScaffoldCompletes(v: Vault, base: string, guide: string)
    requires WellFormed(v)
    requires Normalized(base)
    requires forall i :: 0 <= i < 25 ==> NoFileOn(v, StructurePaths(base)[i])
    ensures var r := CreateDendronFolderStructure(v, base, guide);
            && IsFolder(r.vault, base)
            && (forall i :: 0 <= i < 25 ==> Completed(r.vault, StructurePaths(base)[i]))
            && (r.Imported? <==> GuidePath(base) !in v)
            && (r.Imported? ==> r.vault[GuidePath(base)] == File(guide))
  {
    SubfoldersValid();
    var paths := StructurePaths(base);
    FolderStageUnder(v, base, Subfolders);
    if GuidePath(base) !in v {
      FolderStageAvoidsGuide(v, base, Subfolders);
    }
    var w := EnsureAll(v, paths);
    var r := CreateDendronFolderStructure(v, base, guide);
    if GuidePath(base) !in v {
      GuideWritable(w, base, guide);
    }
    forall i | 0 <= i < 25
      ensures Completed(r.vault, paths[i])
    {
      CompletedKept(w, r.vault, paths[i]);
    }
  }

  /** The folder stage changes nothing when every path is already a folder. */
  lemma {:induction false} EnsureAllExisting(v: Vault, paths: seq<string>)
    requires forall i :: 0 <= i < |paths| ==> IsFolder(v, paths[i])
    ensures EnsureAll(v, paths) == v
    decreases |paths|
  {
    if |paths| > 0 {
      EnsureAllExisting(v, paths[..|paths| - 1]);
    }
  }

  /** A completed normalized path is itself a folder. */
  lemma CompletedIsFolder(w: Vault, path: string)
    requires Normalized(path) && Completed(w, path)
    ensures IsFolder(w, path)
  {
    LastPrefixIsNormalized(path);
  }

  /**
   * Idempotence of the folder stage: after a completed run, running the
   * folder stage again leaves the vault as it is.
   */
  lemma SecondFolderStageChangesNothing(v: Vault, base: string, guide: string)
    requires WellFormed(v)
    requires Normalized(base)
    requires forall i :: 0 <= i < 25 ==> NoFileOn(v, StructurePaths(base)[i])
    ensures var w := CreateDendronFolderStructure(v, base, guide).vault;
            EnsureAll(w, StructurePaths(base)) == w
  {
    ScaffoldCompletes(v, base, guide);
    SubfoldersValid();
    var paths := StructurePaths(base);
    var w := CreateDendronFolderStructure(v, base, guide).vault;
    forall i | 0 <= i < 25
      ensures IsFolder(w, paths[i])
    {
      SubfolderPathSegments(base, Subfolders[i]);
      CompletedIsFolder(w, paths[i]);
    }
    EnsureAllExisting(w, paths);
  }
}

=== FILE: settings.dfy ===
/**
 * The plugin's settings record and `loadSettings`: stored values are
 * merged over the defaults field by field.
 */
module PluginSettings {
  import opened Wrappers

  /** The settings record. The two flags are stored but consulted by no other logic. */
  datatype Settings = Settings(
    defaultImportFolder: string,
    preserveOriginalNames: bool,
    createDateFolders: bool)

  /** The defaults. */
  const Defaults: Settings := Settings("Imported from Dendron", false, true)

  /** What the host's key-value store hands back: each field present or absent. */
  datatype StoredData = StoredData(
    defaultImportFolder: Option<string>,
    preserveOriginalNames: Option<bool>,
    createDateFolders: Option<bool>)

  /** A stored value when present, the default otherwise. */
  function Override<T>(stored: Option<T>, default: T): T
  {
    match stored
    case Some(x) => x
    case None => default
  }

  /**
   * `loadSettings`: the defaults with every stored field copied over them.
   * Nothing stored at all (null) gives the defaults.
   */
  function LoadSettings(data: Option<StoredData>): (s: Settings)
    ensures data.None? ==> s == Defaults
    ensures data.Some? && data.value.defaultImportFolder.Some? ==>
              s.defaultImportFolder == data.value.defaultImportFolder.value
    ensures data.Some? && data.value.preserveOriginalNames.Some? ==>
              s.preserveOriginalNames == data.value.preserveOriginalNames.value
    ensures data.Some? && data.value.createDateFolders.Some? ==>
              s.createDateFolders == data.value.createDateFolders.value
    ensures data.Some? && data.value.defaultImportFolder.None? ==>
              s.defaultImportFolder == Defaults.defaultImportFolder
    ensures data.Some? && data.value.preserveOriginalNames.None? ==>
              s.preserveOriginalNames == Defaults.preserveOriginalNames
    ensures data.Some? && data.value.createDateFolders.None? ==>
              s.createDateFolders == Defaults.createDateFolders
  {
    match data
    case None => Defaults
    case Some(d) =>
      Settings(
        Override(d.defaultImportFolder, Defaults.defaultImportFolder),
        Override(d.preserveOriginalNames, Defaults.preserveOriginalNames),
        Override(d.createDateFolders, Defaults.createDateFolders))
  }

  /** `saveSettings`: every field is stored. */
  function SaveSettings(s: Settings): (d: StoredData)
    ensures d.defaultImportFolder.Some? && d.preserveOriginalNames.Some? && d.createDateFolders.Some?
  {
    StoredData(Some(s.defaultImportFolder), Some(s.preserveOriginalNames), Some(s.createDateFolders))
  }

  /** Loading what was saved gives back the saved settings, whatever the defaults. */
  lemma LoadAfterSave(s: Settings)
    ensures LoadSettings(Some(SaveSettings(s))) == s
  {
  }
}

=== FILE: wrappers.dfy ===
/** Option and Result, shared by the other modules. */
module Wrappers {

  /** A value that may be absent; stands for a nullable reference. */
  datatype Option<+T> = None | Some(value: T)

  /** The outcome of a host call that either returns a value or throws. */
  datatype Result<+T, +E> = Ok(value: T) | Err(error: E)
}
